=== FILE: README.md ===
# Karate parallel runner: a Dafny model

This project models the sequential bookkeeping of Karate's parallel test runner,
`Runner.parallel(String tagSelector, List<Resource> resources, ExecutionHook hook,
int threadCount, String reportDir)`. The method parses each feature file and
submits it to a fixed thread pool. A count-down latch waits for every feature's
completion callback. After the latch, the per-feature results are folded into the
run's `KarateStats`, and the stats are finalised even when something inside the
`try` throws.

The threads themselves are abstracted away. An `Env` value fixes everything that
the producer thread does not decide:

- for each resource, whether it parses;
- whether the engine ever finishes its feature and runs the completion callback;
- the `FeatureResult` the engine leaves behind for it;
- whether its report writes succeed;
- whether the producer is interrupted in `await`;
- whether reading some result throws during aggregation.

Given that, `Runner.Parallel` is a pure function. It returns `Returned(stats, trace)`,
`Escaped(trace)` or `Stalled(trace)`. The trace lists the producer's observable steps
in program order.

Modules, one per component:

- `FeatureResults`: the `Resource` and `FeatureResult` records.
- `Stats`: the `KarateStats` record and its operations. These are stated as
  assumptions, because that class is not part of this model: the `addTo*`
  operations accumulate, `addToFailedList` appends one (name, messages) entry,
  `setFeatureCount`, `setFailureReason` and `setReportDir` store their argument,
  and nothing else changes.
- `CompletionLatch`: the `CountDownLatch` as a counter, and the order in which
  completions reach it.
- `Completion`: the callback each unit runs when it finishes.
- `Aggregation`: the post-latch loop as a left fold, plus independent reference
  definitions (sums, the set of executed indices, the ordered failed indices) and
  proofs that the two agree.
- `Runner`: the submission loop, the `try`/`catch`/`finally`, and properties of
  whole runs.

## Behaviour of the code worth noting

The model follows the code of `Runner.parallel` (lines 75-136 of `Runner.java`),
including three behaviours a caller might not expect:

- `latch.countDown()` (line 109) is the last statement of the completion
  callback and is not in a `finally`. If `saveResultJson` (line 101) or
  `saveResultXml` (line 102) throws, the callback ends without counting down.
  The latch is then never released, and `latch.await()` (line 112), which has
  no timeout, blocks for ever unless the producer thread is interrupted. A
  unit whose feature never finishes has the same effect
  (`Runner.StallsIffSomeUnitNeverCountsDown`).
- `Executors.newFixedThreadPool(threadCount)` (line 83) runs before the `try`
  that starts at line 85. For a thread count below one it throws, and the
  exception leaves `parallel` with no stats at all (`Runner.EscapesIffNoThreads`).
  `new File(reportDir).mkdirs()` (line 78) reports failure by returning `false`,
  and line 78 ignores that value.
- Line 123 copies whatever `result.getErrorMessages()` returns into the failed
  list. The model promises only that the entry holds the result's own
  messages, not that they are non-empty.

## Model

| member | source | states |
|---|---|---|
| Completion.OnComplete | karate-core/src/main/java/com/intuit/karate/Runner.java:98-110 | The callback is a skip exactly when the scenario count is zero, and a skip writes no JSON or XML. Otherwise both reports are written and the log line says fail exactly when the result failed. Every log line carries the unit's own label. The latch count-down happens exactly when no report write threw, and it is then the last effect. |
| CompletionLatch.CountDown | karate-core/src/main/java/com/intuit/karate/Runner.java:87-109 | A count-down lowers the count by exactly one, except on a latch already at zero, which it leaves alone. It releases the latch exactly when the count was one or zero. |
| CompletionLatch.Deliver | karate-core/src/main/java/com/intuit/karate/Runner.java:98-112 | However the units' signals arrive, the count never rises and drops by at most one per signal. A released latch stays released, and signals none of which is a count-down leave the latch unchanged. |
| CompletionLatch.DeliverRemaining | karate-core/src/main/java/com/intuit/karate/Runner.java:87-109 | After any sequence of completions, the latch's count is its start minus the count-downs received, never below zero. |
| CompletionLatch.ReleasedExactlyAtCount | karate-core/src/main/java/com/intuit/karate/Runner.java:87-112 | `await` on a latch created with `count` returns exactly when at least `count` count-downs have arrived, and never earlier. |
| CompletionLatch.DeliveryOrderIrrelevant | karate-core/src/main/java/com/intuit/karate/Runner.java:98-112 | Any reordering of the completion callbacks leaves the latch in the same state, so worker scheduling does not matter. |
| CompletionLatch.CountDownsBound | karate-core/src/main/java/com/intuit/karate/Runner.java:98-110 | Each unit counts down at most once. There is one count-down per unit exactly when every unit signalled. |
| CompletionLatch.ReleasedIffEveryUnitSignals | karate-core/src/main/java/com/intuit/karate/Runner.java:86-112 | With one callback per submitted unit, the latch created with that number releases exactly when every callback counted down. |
| Aggregation.AccumulateStep | karate-core/src/main/java/com/intuit/karate/Runner.java:114-124 | About `Aggregation.Accumulate`, the loop body: one iteration adds the result's scenario count, failed count and duration. It bumps the executed counter exactly when the scenario count is nonzero. It appends the result's (name, messages) entry exactly when the result failed. It leaves the feature count, failure reason and report dir alone. |
| Aggregation.Fold | karate-core/src/main/java/com/intuit/karate/Runner.java:114-125 | Over any list of results, the totals only grow, and the executed counter grows by at most one per result. The failed list only gains entries at its end, at most one per result. The feature count, failure reason and report dir are left as they were. |
| Aggregation.FailedIndices | karate-core/src/main/java/com/intuit/karate/Runner.java:122-124 | The positions of the failed results, strictly increasing, containing every failed position and nothing else. |
| Aggregation.FoldSums | karate-core/src/main/java/com/intuit/karate/Runner.java:114-121 | After the loop, test count, fail count and time taken equal the sums of scenario counts, failed counts and durations. Feature count, failure reason and report dir are left untouched. |
| Aggregation.FoldExecutedCount | karate-core/src/main/java/com/intuit/karate/Runner.java:114-119 | The executed-feature counter equals the number of results whose scenario count is nonzero. |
| Aggregation.ExecutedAndSkippedPartition | karate-core/src/main/java/com/intuit/karate/Runner.java:100-119 | Every result is either executed (nonzero count) or skipped (zero count), never both, and the two numbers add up to the number of results. |
| Aggregation.PartitionWithin | karate-core/src/main/java/com/intuit/karate/Runner.java:100-119 | Within any set of result positions, the skipped and the executed ones are disjoint and together number the whole set. |
| Aggregation.FoldFailedList | karate-core/src/main/java/com/intuit/karate/Runner.java:122-124 | The failed list is exactly the (qualified name, error messages) of the failed results, in submission order. |
| Aggregation.FailedListMembership | karate-core/src/main/java/com/intuit/karate/Runner.java:122-124 | Every failed result has its entry in the failed list, and every entry comes from a failed result. |
| Aggregation.NoFailuresNoEntries | karate-core/src/main/java/com/intuit/karate/Runner.java:122-124 | With no failed result, the failed list is empty. |
| Runner.SubmittedCount | karate-core/src/main/java/com/intuit/karate/Runner.java:89-96 | The loop submits the resources up to the first one whose parse throws, or all of them, and every resource before that point parsed. |
| Runner.ReportDir | karate-core/src/main/java/com/intuit/karate/Runner.java:76-80 | A given report dir is used as is. Otherwise the dir is the build dir followed by `/surefire-reports`. |
| Runner.SubmitLoop | karate-core/src/main/java/com/intuit/karate/Runner.java:88-97 | After `n` iterations the loop has registered exactly `n` results and taken two steps per iteration. |
| Runner.ResultsInOrder | karate-core/src/main/java/com/intuit/karate/Runner.java:88-96 | Result `i` in the list is unit `i`'s result, in input order. |
| Runner.ResultsOnePerResource | karate-core/src/main/java/com/intuit/karate/Runner.java:88-96 | The results list the loop leaves behind has one entry per submitted unit, in input order. It has one per resource exactly when every resource parsed. |
| Runner.SubmissionExactlyOnce | karate-core/src/main/java/com/intuit/karate/Runner.java:89-97 | Iteration `i` registers result `i` immediately before submitting unit `i`. Each result is registered once and each unit submitted once, in input order. |
| Runner.SubmissionCoversPrefix | karate-core/src/main/java/com/intuit/karate/Runner.java:89-97 | Exactly the first `n` units are registered and submitted. |
| Runner.NoShutdownInLoop | karate-core/src/main/java/com/intuit/karate/Runner.java:89-111 | The submission loop only registers results and submits units; in particular it never shuts the pool down. |
| Runner.Setup | karate-core/src/main/java/com/intuit/karate/Runner.java:76-82 | The set-up creates the default report dir exactly when none was given, and then starts the timer. It does nothing else. |
| Runner.TryBlockEnds | karate-core/src/main/java/com/intuit/karate/Runner.java:85-131 | About `Runner.TryBlock`, the `try`/`catch`: when the `try` blocks, its last step is the `await`. When it finishes with a failure reason, its last step records that reason. Nothing inside the `try` sets the feature count or the report dir. |
| Runner.TryNeverShutsDown | karate-core/src/main/java/com/intuit/karate/Runner.java:85-131 | No step inside the `try` shuts the pool down; only the `finally` does. |
| Runner.RunFrame | karate-core/src/main/java/com/intuit/karate/Runner.java:75-136 | About `Runner.Parallel`, the whole method: every run starts with the set-up steps. A returned run holds the resolved report dir, and its trace stores the feature count it returns. |
| Runner.EscapesIffNoThreads | karate-core/src/main/java/com/intuit/karate/Runner.java:76-85 | Among the exceptions this model covers (see Left out), an exception leaves `parallel` exactly when the pool cannot be created (thread count below one). Nothing past the set-up has happened then, and no pool is shut down. |
| Runner.ReturnedRunFinalises | karate-core/src/main/java/com/intuit/karate/Runner.java:126-135 | Whenever `parallel` returns, the pool has been shut down exactly once, after the `try`. The final steps store the feature count reached and the resolved report dir, and the stats hold that dir. |
| Runner.BlockedIff | karate-core/src/main/java/com/intuit/karate/Runner.java:98-112 | The `try` stays in `await` exactly when all units were submitted, the producer is not interrupted, and some unit never counted down: its feature never finished, or its callback threw before the count-down. |
| Runner.StallsIffSomeUnitNeverCountsDown | karate-core/src/main/java/com/intuit/karate/Runner.java:98-112 | The whole run blocks for ever exactly under those conditions, and the pool is then never shut down. |
| Runner.CleanTry | karate-core/src/main/java/com/intuit/karate/Runner.java:85-125 | The `try` ends without a failure reason exactly when every resource parsed, every unit finished and its callback counted down, nothing interrupted, and aggregation read every result. The tally is then the fold of all results. |
| Runner.CleanRunAggregates | karate-core/src/main/java/com/intuit/karate/Runner.java:86-132 | A run returns without a failure reason exactly under those conditions. The list the submission loop built then holds one result per resource, in input order. The stats total that list: sums, executed-feature count and the ordered failed list. |
| Runner.ParseFailureAbortsRun | karate-core/src/main/java/com/intuit/karate/Runner.java:89-132 | A parse failure at resource `k` records the failure. No resource from `k` on is submitted and the latch is never awaited. The stats are still returned, with every total and the feature count at zero. |
| Runner.InterruptedRunKeepsZeroTotals | karate-core/src/main/java/com/intuit/karate/Runner.java:112-132 | An interrupted `await` is recorded as the failure. The timer is not stopped, nothing is aggregated, and every total and the feature count stay zero. |
| Runner.AggregationFailureKeepsPrefix | karate-core/src/main/java/com/intuit/karate/Runner.java:114-132 | A run that submitted every unit, was not interrupted and had every unit count down, and in which reading result `k` throws, returns with `AggregationFailed(k)` as its failure. Conversely, that failure implies exactly those conditions. The stats then keep exactly what the first `k` results contributed, including the executed-feature count reached. |
| Runner.ProgressLabelsInRange | karate-core/src/main/java/com/intuit/karate/Runner.java:89-107 | Unit `i`'s label is `i + 1` of the resource count, so it lies in `1..count`. The pass/fail line and the skip line carry the same label and relative path. |
| Runner.SkipIffNotExecuted | karate-core/src/main/java/com/intuit/karate/Runner.java:100-119 | The callback's `> 0` test and the aggregation's `!= 0` test agree: a submitted unit logs a skip exactly when its feature finishes (so its callback runs) and it is not counted as executed. |
| Runner.SkipsAndExecutedCoverAll | karate-core/src/main/java/com/intuit/karate/Runner.java:100-119 | Among submitted units whose feature finishes, those that log a skip and those counted as executed are disjoint and account for each unit once. When every submitted unit finishes, they account for all submitted units. A unit that never finishes logs nothing. |
| Runner.SkipsAreFinishedSkips | karate-core/src/main/java/com/intuit/karate/Runner.java:98-110 | The units that log a skip are exactly the submitted units whose feature finishes and whose result ran no scenario. |
| Runner.CountersFitInJavaInt | karate-core/src/main/java/com/intuit/karate/Runner.java:86-118 | With at most `Integer.MAX_VALUE` resources, the progress labels and the returned feature count never exceed it, so the runner's `int` counters do not wrap. |
| Runner.AllPassingRun | karate-core/src/main/java/com/intuit/karate/Runner.java:98-124 | If every resource parses, every feature finishes, every report write succeeds, nothing interrupts or fails aggregation, and every feature ran scenarios with none failing, then the run returns without a failure reason. The feature count equals the resource count, the fail count is zero, the failed list is empty, and every unit wrote both reports and logged a pass. |

## Left out

- The thread pool: scheduling, reentrant submission by nested feature calls, and the interruption of running units by `shutdownNow`. The pool appears only as the `PoolCreated` and `PoolShutDown` steps, and completion order only through `CompletionLatch.DeliveryOrderIrrelevant`.
- Blocking in `latch.await()`: `Released` says when it would return, and `Stalled` marks a run that never returns.
- Interrupts: the producer's interrupt is a single flag meaning "interrupted before `await` returns". A run that submitted every unit and has the flag set ends with the `Interrupted` failure, whatever the latch state. A parse failure comes first and ends the loop before `await` is reached.
- Only `Exception`s are modelled. An `Error` thrown inside the `try` (an `OutOfMemoryError`, say) is not caught at line 126. It leaves `parallel` after `shutdownNow` (line 130) and skips lines 132-135; the model has no outcome for it.
- `Engine.getBuildDir` (line 77), `FileUtils.getKarateVersion` and the logger (line 81), and `KarateStats.startTimer` (line 82) are assumed not to throw. Only the pool creation at line 83 can throw before the `try`.
- Inside the `try`, only three throws are modelled: the parse at line 92 (`ParseFailed(k)` stands for that call only), the interrupt of `latch.await()` at line 112, and reading result `k` during aggregation. The constructors at lines 93-97 (`FeatureContext`, `CallContext.forAsync`, `ExecutionContext`, `FeatureExecutionUnit`), `execUnit.submit` (line 98) and `stats.stopTimer()` (line 113) are assumed not to throw. A throw from `submit` would leave result `k` registered but unit `k` not submitted, and one from `stopTimer` would record a failure after `await` with no timer stop; the model has neither outcome.
- Each unit's completion is a flag in the environment: the engine either finishes the feature and runs its callback once, or never does (a hung step). Neither the engine nor a timeout is modelled; `latch.await()` (line 112) has none.
- The log lines at lines 104 and 107 print `feature.getRelativePath()`; the model prints the resource's relative path, assuming the parsed feature keeps it.
- `FeatureParser.parse`, `FeatureContext`, `CallContext`, `ExecutionContext` and `FeatureExecutionUnit` are not part of this model. A parse is a per-resource success flag, and the engine's work is the `FeatureResult` it leaves behind.
- The tag selector and the hook: they only reach the engine, so their effect is folded into each result's `scenarioCount`.
- The contents of the JSON and XML reports, `printStats`, and the log text beyond (status, label, count, relative path). These are file I/O and console output. Logging and `printStats` are assumed not to throw; only the two report writes can.
- Creating the default report directory: recorded as the `ReportDirCreated` step. The default path uses `/` as the file separator. A failing `mkdirs` (which returns `false`) is not modelled.
- The wall-clock timer of `startTimer`/`stopTimer`: appears only as the `TimerStarted` and `TimerStopped` steps.
- Aggregation.FoldSums: `duration` is an abstract natural number, not the floating-point value the engine reports.
- The integer width of the `KarateStats` totals is unknown, because that class is not part of this model, so the totals are unbounded.
- Runner.AggregationFailureKeepsPrefix: an exception during aggregation is modelled as happening before result `k`'s loop body starts. Partial updates from inside one iteration are not modelled.
- The other `parallel` overloads (lines 52-73), the `runFeature` overloads (lines 138-157) and `callAsync` (lines 160-167). They only delegate to the engine, the parser or the file scanner.

=== FILE: aggregation.dfy ===
/**
 * The post-latch reduction over the results list: the aggregation loop as
 * a left fold, independent reference definitions of what it should total,
 * and the proofs that the two agree.
 */
module Aggregation {
  import opened Options
  import opened FeatureResults
  import opened Stats

  /** What the aggregation loop carries: the stats object and the local executed-feature counter. */
  datatype Tally = Tally(stats: KarateStats, executedFeatureCount: nat)

  /** The state before the loop: fresh stats, counter zero. */
  function Start(): Tally
  {
    Tally(StartTimer(), 0)
  }

  /**
   * One iteration of the aggregation loop body; `AccumulateStep` states its
   * effect, and the proofs of the loop's totals use it step by step.
   */
  function Accumulate(t: Tally, r: FeatureResult): Tally
  {
    var s1 := AddToTestCount(t.stats, r.scenarioCount);
    var executed := if r.scenarioCount != 0 then t.executedFeatureCount + 1 else t.executedFeatureCount;
    var s2 := AddToFailCount(s1, r.failedCount);
    var s3 := AddToTimeTaken(s2, r.duration);
    var s4 := if r.failed then AddToFailedList(s3, r.packageQualifiedName, r.errorMessages) else s3;
    Tally(s4, executed)
  }

  /**
   * One iteration adds the result's counts, bumps the executed counter
   * exactly when the result ran scenarios, appends the result's entry to the
   * failed list exactly when it failed, and never touches the feature count,
   * the failure reason or the report directory.
   */
  lemma AccumulateStep(t: Tally, r: FeatureResult)
    ensures var u := Accumulate(t, r);
            && u.stats.testCount == t.stats.testCount + r.scenarioCount
            && u.stats.failCount == t.stats.failCount + r.failedCount
            && u.stats.timeTaken == t.stats.timeTaken + r.duration
            && u.executedFeatureCount == t.executedFeatureCount + (if r.scenarioCount == 0 then 0 else 1)
    ensures var u := Accumulate(t, r);
            && t.stats.failedList <= u.stats.failedList
            && |u.stats.failedList| == |t.stats.failedList| + (if r.failed then 1 else 0)
            && (r.failed ==> u.stats.failedList[|u.stats.failedList| - 1] == FailedEntry(r.packageQualifiedName, r.errorMessages))
    ensures var u := Accumulate(t, r);
            && u.stats.featureCount == t.stats.featureCount
            && u.stats.failureReason == t.stats.failureReason
            && u.stats.reportDir == t.stats.reportDir
  {
  }

  /**
   * The loop after it has processed every element of `rs`, first to last.
   * Totals only grow, the executed counter grows by at most one per result,
   * the failed list only gains entries at its end, and the fields the loop
   * does not own are left as they were.
   */
  function Fold(t: Tally, rs: seq<FeatureResult>): (u: Tally)
    ensures t.stats.testCount <= u.stats.testCount
    ensures t.stats.failCount <= u.stats.failCount
    ensures t.stats.timeTaken <= u.stats.timeTaken
    ensures t.executedFeatureCount <= u.executedFeatureCount <= t.executedFeatureCount + |rs|
    ensures t.stats.failedList <= u.stats.failedList
    ensures |u.stats.failedList| <= |t.stats.failedList| + |rs|
    ensures u.stats.featureCount == t.stats.featureCount
    ensures u.stats.failureReason == t.stats.failureReason
    ensures u.stats.reportDir == t.stats.reportDir
    decreases |rs|
  {
    if |rs| == 0 then t else Accumulate(Fold(t, rs[..|rs| - 1]), rs[|rs| - 1])
  }

  // ---- Reference definitions -------------------------------------------

  function Sum(xs: seq<nat>): nat
  {
    if |xs| == 0 then 0 else xs[0] + Sum(xs[1..])
  }

  function ScenarioCounts(rs: seq<FeatureResult>): seq<nat>
  {
    seq(|rs|, i requires 0 <= i < |rs| => rs[i].scenarioCount)
  }

  function FailedCounts(rs: seq<FeatureResult>): seq<nat>
  {
    seq(|rs|, i requires 0 <= i < |rs| => rs[i].failedCount)
  }

  function Durations(rs: seq<FeatureResult>): seq<nat>
  {
    seq(|rs|, i requires 0 <= i < |rs| => rs[i].duration)
  }

  /** Positions of features that ran at least one scenario. */
  function ExecutedIndices(rs: seq<FeatureResult>): set<nat>
  {
    set i: nat | i < |rs| && rs[i].scenarioCount != 0
  }

  /** Positions of features whose tag selector matched no scenario. */
  function SkippedIndices(rs: seq<FeatureResult>): set<nat>
  {
    set i: nat | i < |rs| && rs[i].scenarioCount == 0
  }

  /** The positions of the failed features, in increasing order. */
  function FailedIndices(rs: seq<FeatureResult>): (idx: seq<nat>)
    ensures forall j, k :: 0 <= j < k < |idx| ==> idx[j] < idx[k]
    ensures forall j :: 0 <= j < |idx| ==> idx[j] < |rs| && rs[idx[j]].failed
    ensures forall i: nat :: i < |rs| && rs[i].failed ==> i in idx
    decreases |rs|
  {
    if |rs| == 0 then []
    else
      var p := FailedIndices(rs[..|rs| - 1]);
      if rs[|rs| - 1].failed then p + [|rs| - 1] else p
  }

  function Entry(r: FeatureResult): FailedEntry
  {
    FailedEntry(r.packageQualifiedName, r.errorMessages)
  }

  /** The failed features' (name, messages), in submission order. */
  function FailedEntries(rs: seq<FeatureResult>): seq<FailedEntry>
  {
    var idx := FailedIndices(rs);
    seq(|idx|, j requires 0 <= j < |idx| => Entry(rs[idx[j]]))
  }

  // ---- Fold versus reference -------------------------------------------

  lemma {:induction false} SumSnoc(xs: seq<nat>, x: nat)
    ensures Sum(xs + [x]) == Sum(xs) + x
    decreases |xs|
  {
    if |xs| == 0 {
      assert xs + [x] == [x];
    } else {
      assert (xs + [x])[1..] == xs[1..] + [x];
      SumSnoc(xs[1..], x);
    }
  }

  /**
   * Test count, fail count and time taken are the sums of the per-feature
   * scenario counts, failed counts and durations; the loop touches no other
   * stats field.
   */
  lemma {:induction false} FoldSums(rs: seq<FeatureResult>)
    ensures Fold(Start(), rs).stats.testCount == Sum(ScenarioCounts(rs))
    ensures Fold(Start(), rs).stats.failCount == Sum(FailedCounts(rs))
    ensures Fold(Start(), rs).stats.timeTaken == Sum(Durations(rs))
    ensures Fold(Start(), rs).stats.featureCount == 0
    ensures Fold(Start(), rs).stats.failureReason == None
    ensures Fold(Start(), rs).stats.reportDir == None
    decreases |rs|
  {
    if |rs| > 0 {
      var p, r := rs[..|rs| - 1], rs[|rs| - 1];
      FoldSums(p);
      AccumulateStep(Fold(Start(), p), r);
      assert ScenarioCounts(rs) == ScenarioCounts(p) + [r.scenarioCount];
      assert FailedCounts(rs) == FailedCounts(p) + [r.failedCount];
      assert Durations(rs) == Durations(p) + [r.duration];
      SumSnoc(ScenarioCounts(p), r.scenarioCount);
      SumSnoc(FailedCounts(p), r.failedCount);
      SumSnoc(Durations(p), r.duration);
    }
  }

  lemma ExecutedSnoc(rs: seq<FeatureResult>)
    requires |rs| > 0
    ensures ExecutedIndices(rs)
         == ExecutedIndices(rs[..|rs| - 1]) + (if rs[|rs| - 1].scenarioCount != 0 then {|rs| - 1} else {})
    ensures SkippedIndices(rs)
         == SkippedIndices(rs[..|rs| - 1]) + (if rs[|rs| - 1].scenarioCount == 0 then {|rs| - 1} else {})
    ensures |rs| - 1 !in ExecutedIndices(rs[..|rs| - 1]) && |rs| - 1 !in SkippedIndices(rs[..|rs| - 1])
  {
  }

  /** The executed-feature counter equals the number of features with a nonzero scenario count. */
  lemma {:induction false} FoldExecutedCount(rs: seq<FeatureResult>)
    ensures Fold(Start(), rs).executedFeatureCount == |ExecutedIndices(rs)|
    decreases |rs|
  {
    if |rs| == 0 {
      assert ExecutedIndices(rs) == {};
    } else {
      FoldExecutedCount(rs[..|rs| - 1]);
      AccumulateStep(Fold(Start(), rs[..|rs| - 1]), rs[|rs| - 1]);
      ExecutedSnoc(rs);
    }
  }

  /** Within any set of positions, each one is either executed or skipped, never both. */
  lemma PartitionWithin(rs: seq<FeatureResult>, f: set<nat>)
    requires forall i :: i in f ==> i < |rs|
    ensures (SkippedIndices(rs) * f) !! (ExecutedIndices(rs) * f)
    ensures |SkippedIndices(rs) * f| + |ExecutedIndices(rs) * f| == |f|
  {
    var sk, ex := SkippedIndices(rs) * f, ExecutedIndices(rs) * f;
    assert sk + ex == f;
    assert sk * ex == {};
  }

  /** Every feature is either executed or skipped, never both. */
  lemma {:induction false} ExecutedAndSkippedPartition(rs: seq<FeatureResult>)
    ensures ExecutedIndices(rs) !! SkippedIndices(rs)
    ensures |ExecutedIndices(rs)| + |SkippedIndices(rs)| == |rs|
    decreases |rs|
  {
    if |rs| == 0 {
      assert ExecutedIndices(rs) == {} && SkippedIndices(rs) == {};
    } else {
      ExecutedAndSkippedPartition(rs[..|rs| - 1]);
      ExecutedSnoc(rs);
    }
  }

  /** The failed list is exactly the failed features' entries, in submission order. */
  lemma {:induction false} FoldFailedList(rs: seq<FeatureResult>)
    ensures Fold(Start(), rs).stats.failedList == FailedEntries(rs)
    decreases |rs|
  {
    if |rs| > 0 {
      var p, r := rs[..|rs| - 1], rs[|rs| - 1];
      FoldFailedList(p);
      var ip := FailedIndices(p);
      assert forall j :: 0 <= j < |ip| ==> rs[ip[j]] == p[ip[j]];
      if r.failed {
        assert FailedEntries(rs) == FailedEntries(p) + [Entry(r)];
      } else {
        assert FailedEntries(rs) == FailedEntries(p);
      }
    }
  }

  /** Every failed feature has its entry in the failed list, and every entry comes from a failed feature. */
  lemma FailedListMembership(rs: seq<FeatureResult>)
    ensures forall i :: 0 <= i < |rs| && rs[i].failed ==> Entry(rs[i]) in Fold(Start(), rs).stats.failedList
    ensures forall e :: e in Fold(Start(), rs).stats.failedList ==>
              exists i :: 0 <= i < |rs| && rs[i].failed && e == Entry(rs[i])
  {
  }

  lemma {:induction false} SumOfZeros(xs: seq<nat>)
    requires forall i :: 0 <= i < |xs| ==> xs[i] == 0
    ensures Sum(xs) == 0
    decreases |xs|
  {
    if |xs| > 0 {
      SumOfZeros(xs[1..]);
    }
  }

  /** With no failed feature, the failed list is empty. */
  lemma {:induction false} NoFailuresNoEntries(rs: seq<FeatureResult>)
    requires forall i :: 0 <= i < |rs| ==> !rs[i].failed
    ensures FailedIndices(rs) == []
    ensures FailedEntries(rs) == []
    decreases |rs|
  {
    if |rs| > 0 {
      NoFailuresNoEntries(rs[..|rs| - 1]);
    }
  }
}

=== FILE: completion.dfy ===
/**
 * The callback each execution unit runs when its feature has finished:
 * write the report pair and log pass/fail, or log a skip when the tag
 * selector matched no scenario, then count the latch down.
 */
module Completion {
  import opened FeatureResults

  datatype Status = Pass | Fail | Skip

  /** What the callback does, in order, as seen from outside. */
  datatype Effect =
    | SaveJson(dir: string)
    | SaveXml(dir: string)
    | Log(status: Status, index: int, total: int, relativePath: string)
    | PrintFeatureStats(relativePath: string)
    | LatchCountDown

  /** Whether each report write returns normally (false: it throws). */
  datatype ReportIo = ReportIo(jsonSaved: bool, xmlSaved: bool)

  /** The effects one callback performed, and whether an exception escaped it. */
  datatype CallbackRun = CallbackRun(effects: seq<Effect>, raised: bool)

  /**
   * The completion callback of unit `index` (1-based) out of `total`. The
   * count-down is the last statement and is not in a `finally`: a report
   * write that throws ends the callback without it.
   */
  function OnComplete(dir: string, index: int, total: int, relativePath: string,
                      r: FeatureResult, io: ReportIo): (c: CallbackRun)
    // an exception escapes only from a report write, and writes happen only for executed features
    ensures c.raised <==> r.scenarioCount != 0 && !(io.jsonSaved && io.xmlSaved)
    // the latch is counted down exactly when nothing escaped, and then as the final effect
    ensures LatchCountDown in c.effects <==> !c.raised
    ensures forall k :: 0 <= k < |c.effects| && c.effects[k] == LatchCountDown ==> k == |c.effects| - 1
    // a skip is logged exactly when no scenario was selected, and then nothing is written
    ensures Log(Skip, index, total, relativePath) in c.effects <==> r.scenarioCount == 0
    ensures r.scenarioCount == 0 ==> SaveJson(dir) !in c.effects && SaveXml(dir) !in c.effects
    // an executed feature whose writes succeed gets both reports and a pass/fail line
    ensures !c.raised && r.scenarioCount != 0 ==>
              && SaveJson(dir) in c.effects
              && SaveXml(dir) in c.effects
              && Log(if r.failed then Fail else Pass, index, total, relativePath) in c.effects
    // every log line carries this unit's label, and says fail exactly for a failed executed feature
    ensures forall k :: 0 <= k < |c.effects| && c.effects[k].Log? ==>
              && c.effects[k].index == index
              && c.effects[k].total == total
              && c.effects[k].relativePath == relativePath
              && (c.effects[k].status == Skip <==> r.scenarioCount == 0)
              && (c.effects[k].status == Fail <==> r.scenarioCount != 0 && r.failed)
  {
    if r.scenarioCount > 0 then
      if !io.jsonSaved then
        CallbackRun([], true)
      else if !io.xmlSaved then
        CallbackRun([SaveJson(dir)], true)
      else
        var status := if r.failed then Fail else Pass;
        CallbackRun([SaveJson(dir), SaveXml(dir), Log(status, index, total, relativePath),
                     PrintFeatureStats(relativePath), LatchCountDown], false)
    else
      CallbackRun([Log(Skip, index, total, relativePath), LatchCountDown], false)
  }
}

=== FILE: completion_latch.dfy ===
/**
 * The completion gate of the parallel run: a one-shot count-down latch
 * created with the number of submitted units. Only the count is modelled;
 * blocking in `await` is read off `Released`.
 */
module CompletionLatch {

  datatype Latch = Latch(remaining: nat)

  function NewLatch(count: nat): Latch
  {
    Latch(count)
  }

  /** A count-down lowers the count by one; on a latch already at zero it has no effect. */
  function CountDown(l: Latch): (r: Latch)
    ensures r.remaining <= l.remaining <= r.remaining + 1
    ensures r.remaining == l.remaining <==> l.remaining == 0
    ensures Released(r) <==> l.remaining <= 1
  {
    if l.remaining == 0 then l else Latch(l.remaining - 1)
  }

  /** `await` returns exactly when the count has reached zero. */
  predicate Released(l: Latch)
  {
    l.remaining == 0
  }

  /**
   * Feeds the units' signals to the latch in the order the workers happen
   * to finish them: `true` for a unit whose callback reached its count-down,
   * `false` for one whose callback raised before it or never ran.
   */
  function Deliver(l: Latch, signals: seq<bool>): (r: Latch)
    // the count never rises, and drops by at most one per callback
    ensures r.remaining <= l.remaining <= r.remaining + |signals|
    // once released, a latch stays released whatever arrives later
    ensures Released(l) ==> Released(r)
    // units none of which counted down leave the latch as it was
    ensures (forall i :: 0 <= i < |signals| ==> !signals[i]) ==> r == l
    decreases |signals|
  {
    if |signals| == 0 then l
    else Deliver(if signals[0] then CountDown(l) else l, signals[1..])
  }

  /** How many of the callbacks counted down. */
  function CountDowns(signals: seq<bool>): nat
  {
    multiset(signals)[true]
  }

  lemma SplitFirst(signals: seq<bool>)
    requires |signals| > 0
    ensures CountDowns(signals) == (if signals[0] then 1 else 0) + CountDowns(signals[1..])
  {
    assert signals == [signals[0]] + signals[1..];
  }

  /** The latch's remaining count is its start minus the count-downs received, never below zero. */
  lemma {:induction false} DeliverRemaining(l: Latch, signals: seq<bool>)
    ensures Deliver(l, signals).remaining
         == if CountDowns(signals) <= l.remaining then l.remaining - CountDowns(signals) else 0
    decreases |signals|
  {
    if |signals| > 0 {
      SplitFirst(signals);
      DeliverRemaining(if signals[0] then CountDown(l) else l, signals[1..]);
    }
  }

  /** `await` on a latch made with `count` returns exactly when at least `count` count-downs arrived. */
  lemma ReleasedExactlyAtCount(count: nat, signals: seq<bool>)
    ensures Released(Deliver(NewLatch(count), signals)) <==> CountDowns(signals) >= count
  {
    DeliverRemaining(NewLatch(count), signals);
  }

  /** Completion order does not matter: any reordering of the callbacks leaves the latch in the same state. */
  lemma DeliveryOrderIrrelevant(l: Latch, s1: seq<bool>, s2: seq<bool>)
    requires multiset(s1) == multiset(s2)
    ensures Deliver(l, s1) == Deliver(l, s2)
  {
    DeliverRemaining(l, s1);
    DeliverRemaining(l, s2);
  }

  /** At most one count-down per unit, and one per unit exactly when every unit signalled. */
  lemma {:induction false} CountDownsBound(signals: seq<bool>)
    ensures CountDowns(signals) <= |signals|
    ensures CountDowns(signals) == |signals| <==> forall i :: 0 <= i < |signals| ==> signals[i]
    decreases |signals|
  {
    if |signals| > 0 {
      SplitFirst(signals);
      CountDownsBound(signals[1..]);
      if forall i :: 0 <= i < |signals| ==> signals[i] {
        assert forall i :: 0 <= i < |signals[1..]| ==> signals[1..][i] == signals[i + 1];
      } else if signals[0] {
        var i :| 0 <= i < |signals| && !signals[i];
        assert !signals[1..][i - 1];
      }
    }
  }

  /**
   * With one callback per submitted unit, the latch created with that number
   * releases exactly when every callback counted down.
   */
  lemma ReleasedIffEveryUnitSignals(signals: seq<bool>)
    ensures Released(Deliver(NewLatch(|signals|), signals))
        <==> forall i :: 0 <= i < |signals| ==> signals[i]
  {
    ReleasedExactlyAtCount(|signals|, signals);
    CountDownsBound(signals);
  }
}

=== FILE: feature_result.dfy ===
/**
 * The per-unit records the parallel runner reads: the identity of each test
 * input it is handed, and the result the execution engine leaves behind for
 * each feature once that feature's unit has finished.
 */
module FeatureResults {

  /** One test input, as the feature-file scanner hands it over. */
  datatype Resource = Resource(path: string, relativePath: string)

  /**
   * A feature's result after its execution unit has finished. The engine
   * writes it and the runner only reads it. `scenarioCount` is the number of
   * scenarios the tag selector let through (zero when it matched nothing);
   * `duration` is an abstract additive amount in the engine's own unit.
   */
  datatype FeatureResult = FeatureResult(
    packageQualifiedName: string,
    scenarioCount: nat,
    failedCount: nat,
    duration: nat,
    failed: bool,
    errorMessages: string)
}

=== FILE: karate_stats.dfy ===
/**
 * The run-level statistics object. Its class is not part of this model, so
 * each operation below is the stated assumption about it: the `AddTo`
 * operations accumulate, the setters store their argument, and nothing else
 * changes.
 */
module Stats {
  import opened Options

  /**
   * Why a run ended early; the runner stores the exception as the failure
   * reason. These are the only exceptions inside the `try` the model covers.
   */
  datatype Failure =
    | ParseFailed(index: nat)        // `FeatureParser.parse` of resource `index` threw in the submission loop
    | Interrupted                    // the producer thread was interrupted in `await`
    | AggregationFailed(index: nat)  // reading result `index` threw inside the aggregation loop

  /** One entry of the failed list: a failed feature's qualified name and its error messages. */
  datatype FailedEntry = FailedEntry(name: string, errorMessages: string)

  datatype KarateStats = KarateStats(
    testCount: nat,
    failCount: nat,
    timeTaken: nat,
    featureCount: nat,
    failedList: seq<FailedEntry>,
    failureReason: Option<Failure>,
    reportDir: Option<string>)

  /** A fresh stats object: every total zero, nothing recorded. */
  function StartTimer(): KarateStats
  {
    KarateStats(0, 0, 0, 0, [], None, None)
  }

  function AddToTestCount(s: KarateStats, n: nat): KarateStats
  {
    s.(testCount := s.testCount + n)
  }

  function AddToFailCount(s: KarateStats, n: nat): KarateStats
  {
    s.(failCount := s.failCount + n)
  }

  function AddToTimeTaken(s: KarateStats, d: nat): KarateStats
  {
    s.(timeTaken := s.timeTaken + d)
  }

  function AddToFailedList(s: KarateStats, name: string, errorMessages: string): KarateStats
  {
    s.(failedList := s.failedList + [FailedEntry(name, errorMessages)])
  }

  function SetFailureReason(s: KarateStats, f: Failure): KarateStats
  {
    s.(failureReason := Some(f))
  }

  function SetFeatureCount(s: KarateStats, n: nat): KarateStats
  {
    s.(featureCount := n)
  }

  function SetReportDir(s: KarateStats, dir: string): KarateStats
  {
    s.(reportDir := Some(dir))
  }
}

=== FILE: options.dfy ===
/** A value that may be absent; stands for a Java reference that may be null. */
module Options {

  datatype Option<+T> = None | Some(value: T)
}

=== FILE: runner.dfy ===
/**
 * The parallel runner's producer side: resolve the report directory, start
 * the stats, create the pool, parse and submit every resource in order
 * (registering its result first), wait on the latch, aggregate the results,
 * and finalise the stats whatever went wrong inside the `try`.
 *
 * Threads are abstracted away: `Env` fixes, per unit, whether its parse
 * succeeds, the result the engine leaves in it and whether its report
 * writes succeed, and for the producer whether it is interrupted while
 * waiting and whether the aggregation loop throws.
 */
module Runner {
  import opened Options
  import opened FeatureResults
  import opened Stats
  import opened CompletionLatch
  import opened Completion
  import opened Aggregation

  /** Largest Java `int`: the width of the runner's counters and labels. */
  const MaxInt: int := 0x7fff_ffff

  /** The file separator the default report directory is built with. */
  const Separator: string := "/"

  /**
   * Everything about one unit that the producer does not decide: whether its
   * resource parses, whether the engine ever finishes the feature and runs
   * the completion callback, the result it leaves behind, and whether the
   * report writes succeed.
   */
  datatype UnitWorld = UnitWorld(parses: bool, finishes: bool, result: FeatureResult, io: ReportIo)

  datatype Env = Env(
    buildDir: string,
    units: seq<UnitWorld>,
    interrupted: bool,               // the producer is interrupted before `await` returns
    aggregationFault: Option<nat>)   // reading this result throws during aggregation

  /** The producer's observable steps, in program order. */
  datatype Step =
    | ReportDirCreated(dir: string)
    | TimerStarted
    | PoolCreated(threads: int)
    | ResultRegistered(unit: nat)
    | UnitSubmitted(unit: nat)
    | AwaitCalled
    | TimerStopped
    | FailureRecorded(reason: Failure)
    | PoolShutDown
    | FeatureCountSet(count: nat)
    | RunStatsPrinted
    | ReportDirSet(dir: string)

  datatype RunOutcome =
    | Returned(stats: KarateStats, trace: seq<Step>)  // `parallel` returns its stats
    | Escaped(trace: seq<Step>)                       // an exception leaves `parallel`
    | Stalled(trace: seq<Step>)                       // `await` never returns

  /** What the `try` block ends with: still blocked in `await`, or done with a tally. */
  datatype TryOutcome =
    | Blocked(trace: seq<Step>)
    | Finished(trace: seq<Step>, tally: Tally)

  /** The report directory: the one given, or `surefire-reports` under the build directory. */
  function ReportDir(reportDir: Option<string>, buildDir: string): (dir: string)
    ensures reportDir.Some? ==> dir == reportDir.value
    ensures reportDir.None? ==> buildDir <= dir && dir[|buildDir|..] == Separator + "surefire-reports"
  {
    match reportDir
    case Some(d) => d
    case None => buildDir + Separator + "surefire-reports"
  }

  /** How many resources the submission loop parses and submits before it ends or a parse throws. */
  function SubmittedCount(units: seq<UnitWorld>): (n: nat)
    ensures n <= |units|
    ensures forall i :: 0 <= i < n ==> units[i].parses
    ensures n < |units| ==> !units[n].parses
    decreases |units|
  {
    if |units| == 0 || !units[0].parses then 0 else 1 + SubmittedCount(units[1..])
  }

  /** What the submission loop has built: the producer's steps and the results list it appends to. */
  datatype Submission = Submission(steps: seq<Step>, results: seq<FeatureResult>)

  /**
   * The first `n` iterations of the submission loop: iteration `i` appends
   * unit `i`'s result to the results list, then submits the unit.
   */
  function SubmitLoop(units: seq<UnitWorld>, n: nat): (s: Submission)
    requires n <= |units|
    ensures |s.results| == n
    ensures |s.steps| == 2 * n
    decreases n
  {
    if n == 0 then Submission([], [])
    else
      var prev := SubmitLoop(units, n - 1);
      Submission(prev.steps + [ResultRegistered(n - 1), UnitSubmitted(n - 1)],
                 prev.results + [units[n - 1].result])
  }

  /** The submission loop's steps, up to the first parse failure. */
  function SubmissionSteps(units: seq<UnitWorld>): seq<Step>
  {
    SubmitLoop(units, SubmittedCount(units)).steps
  }

  /** The results list the submission loop leaves behind; the aggregation loop reads it. */
  function LoopResults(units: seq<UnitWorld>): seq<FeatureResult>
  {
    SubmitLoop(units, SubmittedCount(units)).results
  }

  /** The completion callback of unit `i`, labelled `i + 1` of `|resources|`. */
  function Callback(resources: seq<Resource>, dir: string, env: Env, i: nat): CallbackRun
    requires |env.units| == |resources|
    requires i < |resources|
  {
    OnComplete(dir, i + 1, |resources|, resources[i].relativePath, env.units[i].result, env.units[i].io)
  }

  /** Unit `i` counts the latch down: its feature finishes and its callback does not throw before the count-down. */
  predicate CountsDown(resources: seq<Resource>, dir: string, env: Env, i: nat)
    requires |env.units| == |resources|
    requires i < |resources|
  {
    env.units[i].finishes && !Callback(resources, dir, env, i).raised
  }

  /** For each unit, whether it counted the latch down. */
  function Signals(resources: seq<Resource>, dir: string, env: Env): seq<bool>
    requires |env.units| == |resources|
  {
    seq(|resources|, i requires 0 <= i < |resources| => CountsDown(resources, dir, env, i))
  }

  /** How many results the aggregation loop gets through before it throws, if it does. */
  function AggregatedCount(fault: Option<nat>, count: nat): nat
  {
    match fault
    case Some(k) => if k < count then k else count
    case None => count
  }

  /**
   * The `try` block: submission loop, `await`, aggregation, and the `catch`.
   */
  function TryBlock(resources: seq<Resource>, dir: string, env: Env): TryOutcome
    requires |env.units| == |resources|
  {
    var count := |resources|;
    var n := SubmittedCount(env.units);
    var sub := SubmitLoop(env.units, n);
    if n < count then
      var f := ParseFailed(n);
      Finished(sub.steps + [FailureRecorded(f)], Tally(SetFailureReason(StartTimer(), f), 0))
    else if env.interrupted then
      Finished(sub.steps + [AwaitCalled, FailureRecorded(Interrupted)],
               Tally(SetFailureReason(StartTimer(), Interrupted), 0))
    else if !Released(Deliver(NewLatch(count), Signals(resources, dir, env))) then
      Blocked(sub.steps + [AwaitCalled])
    else
      var k := AggregatedCount(env.aggregationFault, count);
      var tally := Fold(Start(), sub.results[..k]);
      if k < count then
        var f := AggregationFailed(k);
        Finished(sub.steps + [AwaitCalled, TimerStopped, FailureRecorded(f)],
                 tally.(stats := SetFailureReason(tally.stats, f)))
      else
        Finished(sub.steps + [AwaitCalled, TimerStopped], tally)
  }

  /** The steps before the `try`: default report directory, then the timer. */
  function Setup(reportDir: Option<string>, buildDir: string): (s: seq<Step>)
    ensures |s| == if reportDir.None? then 2 else 1
    ensures s[|s| - 1] == TimerStarted
    ensures ReportDirCreated(ReportDir(reportDir, buildDir)) in s <==> reportDir.None?
    ensures forall x :: x in s ==> x.ReportDirCreated? || x.TimerStarted?
  {
    (if reportDir.None? then [ReportDirCreated(ReportDir(reportDir, buildDir))] else []) + [TimerStarted]
  }

  /**
   * `parallel(tagSelector, resources, hook, threadCount, reportDir)`. The pool
   * is created before the `try`, so a thread count below one throws out of
   * `parallel` itself. Otherwise the `finally` shuts the pool down, then the
   * feature count and report directory are stored and the stats returned.
   */
  function Parallel(resources: seq<Resource>, threadCount: int, reportDir: Option<string>, env: Env): RunOutcome
    requires |env.units| == |resources|
  {
    var dir := ReportDir(reportDir, env.buildDir);
    var setup := Setup(reportDir, env.buildDir);
    if threadCount < 1 then
      Escaped(setup)
    else
      match TryBlock(resources, dir, env)
      case Blocked(t) =>
        Stalled(setup + [PoolCreated(threadCount)] + t)
      case Finished(t, tally) =>
        var stats := SetReportDir(SetFeatureCount(tally.stats, tally.executedFeatureCount), dir);
        Returned(stats, setup + [PoolCreated(threadCount)] + t
                        + [PoolShutDown, FeatureCountSet(tally.executedFeatureCount), RunStatsPrinted, ReportDirSet(dir)])
  }

  // ---- Properties of a run ---------------------------------------------

  /**
   * A blocked `try` has just called `await`; a failure reason in its tally
   * is always the one the `catch` recorded as its last step; and nothing
   * inside the `try` sets the feature count or the report directory.
   */
  lemma TryBlockEnds(resources: seq<Resource>, dir: string, env: Env)
    requires |env.units| == |resources|
    ensures var o := TryBlock(resources, dir, env);
            o.Blocked? ==> |o.trace| > 0 && o.trace[|o.trace| - 1] == AwaitCalled
    ensures var o := TryBlock(resources, dir, env);
            o.Finished? && o.tally.stats.failureReason.Some? ==>
              |o.trace| > 0 && o.trace[|o.trace| - 1] == FailureRecorded(o.tally.stats.failureReason.value)
    ensures var o := TryBlock(resources, dir, env);
            o.Finished? ==> o.tally.stats.featureCount == 0 && o.tally.stats.reportDir == None
  {
  }

  /**
   * Every run starts with the set-up steps; a returned run holds the
   * resolved report directory, and its trace stores the feature count it
   * returns.
   */
  lemma RunFrame(resources: seq<Resource>, threadCount: int, reportDir: Option<string>, env: Env)
    requires |env.units| == |resources|
    ensures var out := Parallel(resources, threadCount, reportDir, env);
            var setup := Setup(reportDir, env.buildDir);
            |setup| <= |out.trace| && out.trace[..|setup|] == setup
    ensures var out := Parallel(resources, threadCount, reportDir, env);
            out.Returned? ==>
              && out.stats.reportDir == Some(ReportDir(reportDir, env.buildDir))
              && FeatureCountSet(out.stats.featureCount) in out.trace
  {
  }

  /** The results list holds, in input order, the result of each unit the loop got to. */
  lemma {:induction false} ResultsInOrder(units: seq<UnitWorld>, n: nat)
    requires n <= |units|
    ensures forall i :: 0 <= i < n ==> SubmitLoop(units, n).results[i] == units[i].result
    decreases n
  {
    if n > 0 {
      ResultsInOrder(units, n - 1);
    }
  }

  /**
   * The loop leaves one result per resource, in input order, exactly when
   * every resource parsed; after a parse failure it holds only the results
   * registered before it.
   */
  lemma ResultsOnePerResource(units: seq<UnitWorld>)
    ensures |LoopResults(units)| == SubmittedCount(units)
    ensures forall i :: 0 <= i < |LoopResults(units)| ==> LoopResults(units)[i] == units[i].result
    ensures |LoopResults(units)| == |units| <==> forall i :: 0 <= i < |units| ==> units[i].parses
  {
    ResultsInOrder(units, SubmittedCount(units));
  }

  /**
   * Iteration `i` registers result `i` immediately before submitting unit
   * `i`; each result is registered once and each unit submitted once, in
   * input order.
   */
  lemma {:induction false} SubmissionExactlyOnce(units: seq<UnitWorld>, n: nat)
    requires n <= |units|
    ensures forall i: nat, j :: 0 <= j < 2 * n ==>
              (SubmitLoop(units, n).steps[j] == ResultRegistered(i) <==> i < n && j == 2 * i)
    ensures forall i: nat, j :: 0 <= j < 2 * n ==>
              (SubmitLoop(units, n).steps[j] == UnitSubmitted(i) <==> i < n && j == 2 * i + 1)
    decreases n
  {
    if n > 0 {
      SubmissionExactlyOnce(units, n - 1);
      var prev := SubmitLoop(units, n - 1).steps;
      var t := SubmitLoop(units, n).steps;
      assert forall j :: 0 <= j < 2 * (n - 1) ==> t[j] == prev[j];
      assert t[2 * n - 2] == ResultRegistered(n - 1);
      assert t[2 * n - 1] == UnitSubmitted(n - 1);
    }
  }

  /** Exactly the first `n` units are registered and submitted. */
  lemma SubmissionCoversPrefix(units: seq<UnitWorld>, n: nat)
    requires n <= |units|
    ensures forall i: nat :: ResultRegistered(i) in SubmitLoop(units, n).steps <==> i < n
    ensures forall i: nat :: UnitSubmitted(i) in SubmitLoop(units, n).steps <==> i < n
  {
    SubmissionExactlyOnce(units, n);
    var t := SubmitLoop(units, n).steps;
    forall i: nat | i < n
      ensures ResultRegistered(i) in t && UnitSubmitted(i) in t
    {
      assert t[2 * i] == ResultRegistered(i);
      assert t[2 * i + 1] == UnitSubmitted(i);
    }
  }

  /** The submission loop only registers results and submits units. */
  lemma {:induction false} NoShutdownInLoop(units: seq<UnitWorld>, n: nat)
    requires n <= |units|
    ensures forall x :: x in SubmitLoop(units, n).steps ==> x.ResultRegistered? || x.UnitSubmitted?
    ensures PoolShutDown !in SubmitLoop(units, n).steps
    decreases n
  {
    if n > 0 {
      NoShutdownInLoop(units, n - 1);
    }
  }

  /**
   * Of the exceptions this model covers, `parallel` lets one escape exactly
   * when the pool cannot be created; nothing beyond the set-up has happened then.
   */
  lemma EscapesIffNoThreads(resources: seq<Resource>, threadCount: int, reportDir: Option<string>, env: Env)
    requires |env.units| == |resources|
    ensures Parallel(resources, threadCount, reportDir, env).Escaped? <==> threadCount < 1
    ensures Parallel(resources, threadCount, reportDir, env).Escaped? ==>
              forall s :: s in Parallel(resources, threadCount, reportDir, env).trace ==>
                s.ReportDirCreated? || s.TimerStarted?
  {
  }

  /**
   * Whenever `parallel` returns, the pool has been shut down exactly once,
   * after the `try`, and the last steps store the feature count reached and
   * the report directory, which the stats then hold.
   */
  lemma ReturnedRunFinalises(resources: seq<Resource>, threadCount: int, reportDir: Option<string>, env: Env)
    requires |env.units| == |resources|
    ensures var out := Parallel(resources, threadCount, reportDir, env);
            var dir := ReportDir(reportDir, env.buildDir);
            out.Returned? ==>
              && |out.trace| >= 5
              && out.trace[|out.trace| - 4..]
                 == [PoolShutDown, FeatureCountSet(out.stats.featureCount), RunStatsPrinted, ReportDirSet(dir)]
              && PoolShutDown !in out.trace[..|out.trace| - 4]
              && PoolCreated(threadCount) in out.trace
              && out.stats.reportDir == Some(dir)
  {
    var dir := ReportDir(reportDir, env.buildDir);
    var o := TryBlock(resources, dir, env);
    if threadCount >= 1 && o.Finished? {
      TryNeverShutsDown(resources, dir, env);
      var front := Setup(reportDir, env.buildDir) + [PoolCreated(threadCount)];
      var back := [PoolShutDown, FeatureCountSet(o.tally.executedFeatureCount), RunStatsPrinted, ReportDirSet(dir)];
      var out := Parallel(resources, threadCount, reportDir, env);
      assert out.trace == (front + o.trace) + back;
      assert out.trace[..|out.trace| - 4] == front + o.trace;
      assert PoolShutDown !in front;
    }
  }

  /** Nothing inside the `try` shuts the pool down; only the `finally` does. */
  lemma TryNeverShutsDown(resources: seq<Resource>, dir: string, env: Env)
    requires |env.units| == |resources|
    ensures PoolShutDown !in TryBlock(resources, dir, env).trace
  {
    NoShutdownInLoop(env.units, SubmittedCount(env.units));
  }

  /**
   * The run blocks forever exactly when every resource was submitted, the
   * producer is not interrupted, and some unit never counted down (its
   * feature never finished, or its callback threw before the count-down);
   * the pool is then never shut down.
   */
  lemma StallsIffSomeUnitNeverCountsDown(resources: seq<Resource>, threadCount: int, reportDir: Option<string>, env: Env)
    requires |env.units| == |resources|
    ensures var out := Parallel(resources, threadCount, reportDir, env);
            var dir := ReportDir(reportDir, env.buildDir);
            out.Stalled? <==>
              && threadCount >= 1
              && SubmittedCount(env.units) == |resources|
              && !env.interrupted
              && exists i :: 0 <= i < |resources| && !CountsDown(resources, dir, env, i)
    ensures var out := Parallel(resources, threadCount, reportDir, env);
            out.Stalled? ==> PoolShutDown !in out.trace && out.trace[|out.trace| - 1] == AwaitCalled
  {
    BlockedIff(resources, ReportDir(reportDir, env.buildDir), env);
    StalledTrace(resources, threadCount, reportDir, env);
  }

  /** A stalled run's last step is the `await`, and its pool is never shut down. */
  lemma StalledTrace(resources: seq<Resource>, threadCount: int, reportDir: Option<string>, env: Env)
    requires |env.units| == |resources|
    ensures var out := Parallel(resources, threadCount, reportDir, env);
            out.Stalled? ==> PoolShutDown !in out.trace && out.trace[|out.trace| - 1] == AwaitCalled
  {
    var dir := ReportDir(reportDir, env.buildDir);
    if threadCount >= 1 && TryBlock(resources, dir, env).Blocked? {
      BlockedIff(resources, dir, env);
      var front := Setup(reportDir, env.buildDir) + [PoolCreated(threadCount)];
      assert Parallel(resources, threadCount, reportDir, env).trace
          == front + SubmitLoop(env.units, |resources|).steps + [AwaitCalled];
      AbsentAroundLoop(env.units, |resources|, front, [AwaitCalled], PoolShutDown);
    }
  }

  /**
   * A step that is not part of the set-up, the pool's creation or the loop
   * is absent from the loop wrapped in those steps and a tail that lacks it.
   */
  lemma AbsentAroundLoop(units: seq<UnitWorld>, k: nat, front: seq<Step>, back: seq<Step>, x: Step)
    requires k <= |units|
    requires forall y :: y in front ==> y.ReportDirCreated? || y.TimerStarted? || y.PoolCreated?
    requires !x.ReportDirCreated? && !x.TimerStarted? && !x.PoolCreated?
    requires !x.ResultRegistered? && !x.UnitSubmitted?
    requires x !in back
    ensures x !in front + SubmitLoop(units, k).steps + back
  {
    NoShutdownInLoop(units, k);
  }

  /** The `try` block stays in `await` exactly when all units were submitted, none interrupts, and some unit never counted down. */
  lemma BlockedIff(resources: seq<Resource>, dir: string, env: Env)
    requires |env.units| == |resources|
    ensures TryBlock(resources, dir, env).Blocked? <==>
              && SubmittedCount(env.units) == |resources|
              && !env.interrupted
              && exists i :: 0 <= i < |resources| && !CountsDown(resources, dir, env, i)
    ensures TryBlock(resources, dir, env).Blocked? ==>
              TryBlock(resources, dir, env).trace == SubmissionSteps(env.units) + [AwaitCalled]
  {
    var signals := Signals(resources, dir, env);
    ReleasedIffEveryUnitSignals(signals);
    assert forall i :: 0 <= i < |signals| ==> signals[i] == CountsDown(resources, dir, env, i);
  }

  /** The `try` block ends without a failure exactly when nothing went wrong, and then it has folded every result. */
  lemma CleanTry(resources: seq<Resource>, dir: string, env: Env)
    requires |env.units| == |resources|
    ensures var o := TryBlock(resources, dir, env);
            (o.Finished? && o.tally.stats.failureReason == None) <==>
              && SubmittedCount(env.units) == |resources|
              && !env.interrupted
              && (forall i :: 0 <= i < |resources| ==> CountsDown(resources, dir, env, i))
              && AggregatedCount(env.aggregationFault, |resources|) == |resources|
    ensures var o := TryBlock(resources, dir, env);
            o.Finished? && o.tally.stats.failureReason == None ==>
              o.tally == Fold(Start(), LoopResults(env.units))
  {
    BlockedIff(resources, dir, env);
    var rs := LoopResults(env.units);
    if SubmittedCount(env.units) == |resources| {
      var k := AggregatedCount(env.aggregationFault, |resources|);
      FoldSums(rs[..k]);
      assert rs[..|resources|] == rs;
    }
  }

  /**
   * A run that returns without a failure reason is one where every resource
   * parsed, every unit counted down, the producer was not interrupted and
   * aggregation read every result; its stats then total the results list,
   * which holds one result per resource in input order.
   */
  lemma CleanRunAggregates(resources: seq<Resource>, threadCount: int, reportDir: Option<string>, env: Env)
    requires |env.units| == |resources|
    ensures var out := Parallel(resources, threadCount, reportDir, env);
            var dir := ReportDir(reportDir, env.buildDir);
            (out.Returned? && out.stats.failureReason == None) <==>
              && threadCount >= 1
              && SubmittedCount(env.units) == |resources|
              && !env.interrupted
              && (forall i :: 0 <= i < |resources| ==> CountsDown(resources, dir, env, i))
              && (env.aggregationFault.None? || env.aggregationFault.value >= |resources|)
    ensures var out := Parallel(resources, threadCount, reportDir, env);
            var rs := LoopResults(env.units);
            out.Returned? && out.stats.failureReason == None ==>
              && |rs| == |resources|
              && (forall i :: 0 <= i < |rs| ==> rs[i] == env.units[i].result)
              && out.stats.testCount == Sum(ScenarioCounts(rs))
              && out.stats.failCount == Sum(FailedCounts(rs))
              && out.stats.timeTaken == Sum(Durations(rs))
              && out.stats.featureCount == |ExecutedIndices(rs)|
              && out.stats.failedList == FailedEntries(rs)
  {
    var dir := ReportDir(reportDir, env.buildDir);
    CleanTry(resources, dir, env);
    ResultsOnePerResource(env.units);
    var rs := LoopResults(env.units);
    FoldSums(rs);
    FoldExecutedCount(rs);
    FoldFailedList(rs);
  }

  /**
   * A parse failure aborts the submission loop: no later resource is
   * submitted, the latch is never awaited, the failure is recorded, and the
   * stats are finalised with every total and the feature count at zero.
   */
  lemma ParseFailureAbortsRun(resources: seq<Resource>, threadCount: int, reportDir: Option<string>, env: Env)
    requires |env.units| == |resources|
    requires threadCount >= 1
    requires exists i :: 0 <= i < |resources| && !env.units[i].parses
    ensures var out := Parallel(resources, threadCount, reportDir, env);
            var k := SubmittedCount(env.units);
            && k < |resources|
            && !env.units[k].parses
            && (forall i :: 0 <= i < k ==> env.units[i].parses)
            && out.Returned?
            && out.stats.failureReason == Some(ParseFailed(k))
            && (forall i: nat :: UnitSubmitted(i) in out.trace <==> i < k)
            && AwaitCalled !in out.trace
            && out.stats.featureCount == 0
            && out.stats.testCount == 0
            && out.stats.failCount == 0
            && out.stats.timeTaken == 0
            && out.stats.failedList == []
  {
    var k := SubmittedCount(env.units);
    var dir := ReportDir(reportDir, env.buildDir);
    var f := ParseFailed(k);
    assert TryBlock(resources, dir, env) == Finished(SubmitLoop(env.units, k).steps + [FailureRecorded(f)], Tally(SetFailureReason(StartTimer(), f), 0));
    ParseFailureTrace(resources, threadCount, reportDir, env);
  }

  /** The trace of a run whose parse fails at `k`: the loop, then straight to the `catch`. */
  lemma ParseFailureTrace(resources: seq<Resource>, threadCount: int, reportDir: Option<string>, env: Env)
    requires |env.units| == |resources|
    requires threadCount >= 1
    requires SubmittedCount(env.units) < |resources|
    ensures var out := Parallel(resources, threadCount, reportDir, env);
            var k := SubmittedCount(env.units);
            && (forall i: nat :: UnitSubmitted(i) in out.trace <==> i < k)
            && AwaitCalled !in out.trace
  {
    var k := SubmittedCount(env.units);
    var dir := ReportDir(reportDir, env.buildDir);
    var front := Setup(reportDir, env.buildDir) + [PoolCreated(threadCount)];
    var back := [FailureRecorded(ParseFailed(k)), PoolShutDown, FeatureCountSet(0), RunStatsPrinted, ReportDirSet(dir)];
    assert Parallel(resources, threadCount, reportDir, env).trace == front + SubmitLoop(env.units, k).steps + back;
    SubmittedBetween(env.units, k, front, back);
  }

  /** Wrapped in steps that submit nothing and never await, the loop's steps still submit exactly the first `k` units. */
  lemma SubmittedBetween(units: seq<UnitWorld>, k: nat, front: seq<Step>, back: seq<Step>)
    requires k <= |units|
    requires forall x :: x in front ==> x.ReportDirCreated? || x.TimerStarted? || x.PoolCreated?
    requires forall x :: x in back ==> !x.UnitSubmitted? && !x.AwaitCalled?
    ensures forall i: nat :: UnitSubmitted(i) in front + SubmitLoop(units, k).steps + back <==> i < k
    ensures AwaitCalled !in front + SubmitLoop(units, k).steps + back
  {
    SubmissionCoversPrefix(units, k);
    NoShutdownInLoop(units, k);
  }

  /** An interrupted `await` is recorded as the failure; nothing was aggregated, so every total stays zero. */
  lemma InterruptedRunKeepsZeroTotals(resources: seq<Resource>, threadCount: int, reportDir: Option<string>, env: Env)
    requires |env.units| == |resources|
    requires threadCount >= 1
    requires SubmittedCount(env.units) == |resources|
    requires env.interrupted
    ensures var out := Parallel(resources, threadCount, reportDir, env);
            && out.Returned?
            && out.stats.failureReason == Some(Interrupted)
            && TimerStopped !in out.trace
            && out.stats.featureCount == 0
            && out.stats.testCount == 0
            && out.stats.failCount == 0
            && out.stats.timeTaken == 0
            && out.stats.failedList == []
  {
    var dir := ReportDir(reportDir, env.buildDir);
    var front := Setup(reportDir, env.buildDir) + [PoolCreated(threadCount)];
    var back := [AwaitCalled, FailureRecorded(Interrupted), PoolShutDown, FeatureCountSet(0), RunStatsPrinted, ReportDirSet(dir)];
    assert Parallel(resources, threadCount, reportDir, env).trace
        == front + SubmitLoop(env.units, |resources|).steps + back;
    AbsentAroundLoop(env.units, |resources|, front, back, TimerStopped);
  }

  /**
   * A run reaches the aggregation loop and reading result `k` throws exactly
   * when the failure recorded is `AggregationFailed(k)`; the stats then keep
   * exactly what the loop had accumulated from the first `k` results,
   * including the executed-feature count it reached.
   */
  lemma AggregationFailureKeepsPrefix(resources: seq<Resource>, threadCount: int, reportDir: Option<string>, env: Env)
    requires |env.units| == |resources|
    ensures var out := Parallel(resources, threadCount, reportDir, env);
            var dir := ReportDir(reportDir, env.buildDir);
            (&& threadCount >= 1
             && SubmittedCount(env.units) == |resources|
             && !env.interrupted
             && (forall i :: 0 <= i < |resources| ==> CountsDown(resources, dir, env, i))
             && env.aggregationFault.Some? && env.aggregationFault.value < |resources|)
            ==> out.Returned? && out.stats.failureReason == Some(AggregationFailed(env.aggregationFault.value))
    ensures var out := Parallel(resources, threadCount, reportDir, env);
            out.Returned? && out.stats.failureReason.Some? && out.stats.failureReason.value.AggregationFailed? ==>
              var k := out.stats.failureReason.value.index;
              && threadCount >= 1
              && SubmittedCount(env.units) == |resources|
              && !env.interrupted
              && (forall i :: 0 <= i < |resources| ==> CountsDown(resources, ReportDir(reportDir, env.buildDir), env, i))
              && k < |resources|
              && env.aggregationFault == Some(k)
              && var rs := LoopResults(env.units)[..k];
              && out.stats.testCount == Sum(ScenarioCounts(rs))
              && out.stats.failCount == Sum(FailedCounts(rs))
              && out.stats.timeTaken == Sum(Durations(rs))
              && out.stats.featureCount == |ExecutedIndices(rs)|
              && out.stats.failedList == FailedEntries(rs)
  {
    var dir := ReportDir(reportDir, env.buildDir);
    BlockedIff(resources, dir, env);
    if SubmittedCount(env.units) == |resources| {
      var k := AggregatedCount(env.aggregationFault, |resources|);
      var rs := LoopResults(env.units)[..k];
      FoldSums(rs);
      FoldExecutedCount(rs);
      FoldFailedList(rs);
    }
  }

  /**
   * Unit `i`'s progress label is `i + 1` of the resource count, so it lies
   * in `1..count`; the pass/fail line and the skip line use the same label.
   */
  lemma ProgressLabelsInRange(resources: seq<Resource>, dir: string, env: Env, i: nat)
    requires |env.units| == |resources|
    requires i < |resources|
    ensures forall e :: e in Callback(resources, dir, env, i).effects && e.Log? ==>
              && e.index == i + 1
              && 1 <= e.index <= |resources|
              && e.total == |resources|
              && e.relativePath == resources[i].relativePath
  {
  }

  /** What unit `i` actually logs and writes: its callback's effects if its feature finishes, nothing otherwise. */
  function UnitEffects(resources: seq<Resource>, dir: string, env: Env, i: nat): seq<Effect>
    requires |env.units| == |resources|
    requires i < |resources|
  {
    if env.units[i].finishes then Callback(resources, dir, env, i).effects else []
  }

  /**
   * The callback's `> 0` test and the aggregation's `!= 0` test agree: a
   * submitted unit logs a skip exactly when its feature finishes and it is
   * not counted as executed.
   */
  lemma SkipIffNotExecuted(resources: seq<Resource>, dir: string, env: Env, i: nat)
    requires |env.units| == |resources|
    requires i < SubmittedCount(env.units)
    ensures Log(Skip, i + 1, |resources|, resources[i].relativePath) in UnitEffects(resources, dir, env, i)
        <==> env.units[i].finishes && i !in ExecutedIndices(LoopResults(env.units))
  {
    ResultsOnePerResource(env.units);
  }

  /** Submitted units whose feature finishes. */
  function FinishedIndices(env: Env): set<nat>
  {
    set i: nat | i < SubmittedCount(env.units) && env.units[i].finishes
  }

  /** Submitted units that log a skip. */
  function SkipLoggedIndices(resources: seq<Resource>, dir: string, env: Env): set<nat>
    requires |env.units| == |resources|
  {
    set i: nat | i < SubmittedCount(env.units) && Log(Skip, i + 1, |resources|, resources[i].relativePath) in UnitEffects(resources, dir, env, i)
  }

  /**
   * Among the submitted units whose feature finishes, those that log a skip
   * and those counted as executed are disjoint and account for each unit
   * once; when every submitted unit finishes, they account for all of them.
   */
  lemma SkipsAndExecutedCoverAll(resources: seq<Resource>, dir: string, env: Env)
    requires |env.units| == |resources|
    ensures SkipLoggedIndices(resources, dir, env) !! ExecutedIndices(LoopResults(env.units))
    ensures SkipLoggedIndices(resources, dir, env) <= FinishedIndices(env)
    ensures |SkipLoggedIndices(resources, dir, env)| + |ExecutedIndices(LoopResults(env.units)) * FinishedIndices(env)|
            == |FinishedIndices(env)|
    ensures (forall i :: 0 <= i < SubmittedCount(env.units) ==> env.units[i].finishes) ==>
              |SkipLoggedIndices(resources, dir, env)| + |ExecutedIndices(LoopResults(env.units))| == SubmittedCount(env.units)
  {
    var rs := LoopResults(env.units);
    var fin := FinishedIndices(env);
    SkipsAreFinishedSkips(resources, dir, env);
    PartitionWithin(rs, fin);
    if forall i :: 0 <= i < SubmittedCount(env.units) ==> env.units[i].finishes {
      assert ExecutedIndices(rs) * fin == ExecutedIndices(rs);
      ExecutedAndSkippedPartition(rs);
      assert SkippedIndices(rs) * fin == SkippedIndices(rs);
    }
  }

  /** The skip-logging units are the finishing units whose result ran no scenario. */
  lemma SkipsAreFinishedSkips(resources: seq<Resource>, dir: string, env: Env)
    requires |env.units| == |resources|
    ensures |LoopResults(env.units)| == SubmittedCount(env.units)
    ensures SkipLoggedIndices(resources, dir, env) == SkippedIndices(LoopResults(env.units)) * FinishedIndices(env)
  {
    ResultsOnePerResource(env.units);
  }

  /**
   * With at most `MaxInt` resources (a Java list's limit), the progress
   * labels and the executed-feature counter never exceed `MaxInt`: the
   * runner's `int` arithmetic does not wrap.
   */
  lemma CountersFitInJavaInt(resources: seq<Resource>, threadCount: int, reportDir: Option<string>, env: Env)
    requires |env.units| == |resources|
    requires |resources| <= MaxInt
    ensures forall i :: 0 <= i < |resources| ==>
              forall e :: e in Callback(resources, ReportDir(reportDir, env.buildDir), env, i).effects && e.Log? ==>
                e.index <= MaxInt
    ensures var out := Parallel(resources, threadCount, reportDir, env);
            out.Returned? ==> out.stats.featureCount <= |resources| <= MaxInt
  {
    var k := AggregatedCount(env.aggregationFault, |resources|);
    if SubmittedCount(env.units) == |resources| {
      var rs := LoopResults(env.units)[..k];
      FoldExecutedCount(rs);
      ExecutedAndSkippedPartition(rs);
    }
  }

  /**
   * A clean run in which every feature ran scenarios and none failed: every
   * feature counts as executed, the fail count is zero, the failed list is
   * empty, and every unit wrote both reports and logged a pass.
   */
  lemma AllPassingRun(resources: seq<Resource>, threadCount: int, reportDir: Option<string>, env: Env)
    requires |env.units| == |resources|
    requires threadCount >= 1
    requires forall i :: 0 <= i < |env.units| ==> env.units[i].parses && env.units[i].finishes && env.units[i].io == ReportIo(true, true)
    requires !env.interrupted && env.aggregationFault == None
    requires forall i :: 0 <= i < |env.units| ==>
               env.units[i].result.scenarioCount != 0 && !env.units[i].result.failed && env.units[i].result.failedCount == 0
    ensures var out := Parallel(resources, threadCount, reportDir, env);
            && out.Returned?
            && out.stats.failureReason == None
            && out.stats.featureCount == |resources|
            && out.stats.failCount == 0
            && out.stats.failedList == []
    ensures var dir := ReportDir(reportDir, env.buildDir);
            forall i :: 0 <= i < |resources| ==>
              && SaveJson(dir) in Callback(resources, dir, env, i).effects
              && SaveXml(dir) in Callback(resources, dir, env, i).effects
              && Log(Pass, i + 1, |resources|, resources[i].relativePath) in Callback(resources, dir, env, i).effects
  {
    CleanRunAggregates(resources, threadCount, reportDir, env);
    var rs := LoopResults(env.units);
    ExecutedAndSkippedPartition(rs);
    assert SkippedIndices(rs) == {};
    SumOfZeros(FailedCounts(rs));
    NoFailuresNoEntries(rs);
  }
}
